=== FILE: README.md ===
# Financial-term explainer: a Dafny model

This project models the request pipeline of a small browser extension and its
backend. The extension explains financial terms the user selects on a page,
and it offers a chat sidebar. The backend answers `POST /explain` and
`POST /chat` by calling a language model. It traces every request: one trace
per request, with the model calls as child spans, a clarity score, and an
output, an error, or both when `flush` throws.

The model has one module per source file. The modules for collaborators and
shared types sit beside them:

- `Text` (`text.dfy`) covers the JavaScript string operations the code relies
  on: `String.prototype.trim` with the ECMAScript white-space set,
  truthiness, `slice(0, n)`, and the decimal rendering of `Date.now()`.
- `Wire` (`wire.dfy`) holds the loosely typed JSON bodies. A body field is
  absent, a string, or another JSON value with its truthiness.
- `Tracing` (`tracing.dfy`) describes what a request leaves in the tracing
  service: an ordered log of model calls, scores, output and error updates,
  `end` and `flush`, plus counts of terminal states.
- `Backend` and `BackendProperties` (`backend.dfy`) model
  `backend/src/index.ts`: `evaluateClarity` and the two route handlers. Each
  handler is a pure function of the request body and the outcomes of its
  collaborators. A model call returned a possibly absent text, or it threw.
  `flush` succeeded or threw. `parseFloat` is an abstract
  `string -> Option<real>` in which `None` stands for NaN. Each handler
  returns the response and the trace.
- `Sidebar` (`sidebar.dfy`) models `extension/sidebar.js`: the open toggle,
  the local history resent with every message, and the message bubbles with
  their timestamp ids.
- `Overlay` (`overlay.dfy`) models `extension/overlay.js`: where the box is
  placed, what it shows, and the rule that at most one box exists.
- `Content` (`content.dfy`) models `extension/content.js`: which selections
  trigger a request, what gets posted, and what the overlay shows when the
  request settles.

The model follows what the code does, including where that is not what a
reader might expect:

- The handlers run no guardrail classifier, and no feedback endpoint exists.
- `/chat` returns `{reply}` only, with no trace id.
- The clarity score is not clamped to [0, 1] (`ClarityNotClamped`).
- A `flush` failure is not swallowed. It sends the request through the catch
  block, so the trace then holds both an output and an error, is ended
  twice, and the client gets a 500 (`ExplainFlushFailure`, `ChatFlushFailure`).
- If the model answers with white space only, that answer counts as truthy
  and is not replaced by the fallback. The trimmed response then carries an
  empty explanation (`WhitespaceAnswerIsEmptied`).

## Model

| member | source | states |
|---|---|---|
| Text.Trim | extension/content.js:15 | `trim()` returns the contiguous middle of the string between its leading and trailing white space; the result is empty exactly when the string is all white space |
| Text.NatToStringInjective | extension/sidebar.js:102 | distinct timestamps render as distinct decimal strings |
| Backend.ScoreText | backend/src/index.ts:51 | the text parsed is exactly the trimmed judge answer; an absent or all-white-space answer is replaced by "0.5" |
| Backend.ValidText | backend/src/index.ts:73-75 | the text is accepted exactly when it is a non-empty string; its contents, white space included, are not checked |
| Backend.Conclude | backend/src/index.ts:123-130 | the trace keeps its name, input, tags and metadata, and everything the `try` block recorded comes first; a completed block passes its events and response through; a thrown one adds exactly one terminal state (the error), one `end` and no model call, and answers 500 with the fixed failure body (the `/chat` catch block at lines 180-187 is the same) |
| Backend.EvaluateClarity | backend/src/index.ts:27-58 | a thrown judge call scores exactly 0; an answer with some non-space character is parsed without its surrounding white space; a missing or all-white-space answer is parsed as "0.5"; a NaN parse scores 0.5, and any parsed number is returned unclamped |
| BackendProperties.ClarityDefaultsToHalf | backend/src/index.ts:51-53 | a missing or blank judge answer scores 0.5, given that "0.5" parses to 0.5 |
| BackendProperties.ClarityThrowIsNotDefault | backend/src/index.ts:51-57 | the 0 for a thrown call differs from the 0.5 for a missing or NaN answer |
| BackendProperties.ClarityNotClamped | backend/src/index.ts:52-53 | an answer that parses to 3 scores 3, so no clamp to [0, 1] is applied |
| Backend.NormaliseContext | backend/src/index.ts:77 | absent, falsy or all-white-space context becomes "No additional context."; other strings are kept verbatim; a truthy non-string context throws a TypeError |
| Backend.UserMeta | backend/src/index.ts:67 | the `user_id` metadata is always truthy: it is the request's `user_id` exactly when that is truthy, and "anonymous" otherwise |
| Backend.Explain | backend/src/index.ts:61-131 | invalid text fails with a 500 before any model call, and its trace holds only the error and `end`; the model is called exactly when validation and context normalisation pass; the status is 200 exactly when the handler reaches `flush` and `flush` succeeds; a 200 carries the trimmed explanation and the id of the trace the handler opened, while the trace output keeps the untrimmed text; every other outcome is the fixed 500 body; exactly one terminal state unless `flush` throws |
| Backend.ExplainEvents | backend/src/index.ts:77-114 | a handler that reaches `flush` has issued exactly: the generation call on the text and normalised context, the judge call on the explanation, the clarity score, the output, `end`, `flush` |
| Backend.ExplainCounts | backend/src/index.ts:70-130 | the `try` block makes a model call exactly when the input is accepted; it completes exactly when `flush` is reached and succeeds; it writes one terminal state and one `end` when it reaches `flush` and none otherwise |
| BackendProperties.AcceptedFailsUpstream | backend/src/index.ts:77-130 | once the input is accepted, the `try` block writes no error itself and throws only upstream errors |
| BackendProperties.WellFormedRequestFailsOnlyUpstream | backend/src/index.ts:70-130 | with a non-empty string text and a context that does not throw, the model is always called, and any recorded error is an upstream one |
| BackendProperties.WhitespaceTextReachesModel | backend/src/index.ts:73-75 | text made only of white space passes validation and, when the context does not throw, is sent to the model |
| BackendProperties.EmptyAnswerUsesFallback | backend/src/index.ts:101-121 | an absent or empty model text becomes the fallback sentence; the judge scores that sentence, the trace output records it, and, when `flush` succeeds, the client receives it |
| BackendProperties.ExplainSuccessOrder | backend/src/index.ts:104-121 | a successful request issues, in order: the generation call, the judge call, the `clarity_metric` score, the output `{explanation, clarityScore}`, `end`, `flush` |
| BackendProperties.ExplainFlushFailure | backend/src/index.ts:114-129 | a throwing `flush` leaves two terminal states and two `end`s on the trace, both the output and the error, and a 500 for the client |
| BackendProperties.WhitespaceAnswerIsEmptied | backend/src/index.ts:101-121 | a model answer made of white space only is kept as the explanation and, when `flush` succeeds, reaches the client as "" |
| Backend.Chat | backend/src/index.ts:134-188 | the model is called exactly when `history \|\| []` can be spread (a falsy history gives nothing, an array its elements, a string its characters, any other truthy value throws), and its first call sees the spread history plus the new user turn; the trace gets the id the tracing client assigns, but no response carries it; the status is 200 exactly when `flush` is reached and succeeds; a 200 carries only a non-empty reply; every failure answers the fixed 500 reply after recording the error and `end` |
| Backend.ChatCounts | backend/src/index.ts:141-186 | the chat `try` block calls the model exactly when the history can be spread; it writes one terminal state and one `end` when it reaches `flush` and none otherwise |
| BackendProperties.ChatEmptyAnswerUsesFallback | backend/src/index.ts:172-178 | an absent or empty reply becomes "I didn't get a response." |
| BackendProperties.ChatFlushFailure | backend/src/index.ts:172-186 | a throwing chat `flush` leaves both the output and the error, two `end`s, and a 500 |
| Sidebar.Init | extension/sidebar.js:3-7 | the sidebar starts closed, with an empty input and history and a single greeting bubble; the greeting has no id, so no `updateMessage` can reach it (the greeting markup is at line 27) |
| Sidebar.Toggle | extension/sidebar.js:51-59 | `toggleSidebar` flips `isOpen` and changes nothing else |
| Sidebar.ToggleTwice | extension/sidebar.js:51-52 | two toggles restore the original state |
| Sidebar.MessageIdsCollide | extension/sidebar.js:102 | two bubbles share an id exactly when they are created in the same millisecond |
| Sidebar.AddMessage | extension/sidebar.js:98-106 | a bubble is appended with id "msg-" plus the timestamp, and that id is returned; when no earlier bubble carries that id, looking it up finds the new bubble |
| Sidebar.FindMessage | extension/sidebar.js:109 | the lookup finds the first bubble with the id, or reports that none has it |
| Sidebar.UpdateMessage | extension/sidebar.js:108-111 | only the first bubble with the id gets the new text; nothing changes when no bubble has it |
| Sidebar.BeginSend | extension/sidebar.js:61-83 | blank input changes nothing and sends nothing; otherwise the input is cleared, the user turn is appended before the request, and the request carries the trimmed text and a history ending with that turn |
| Sidebar.SameMillisecondOverwritesUserBubble | extension/sidebar.js:69-88 | if both bubbles of a send get the same millisecond and no earlier bubble carries that id, the reply overwrites the user's bubble and "Thinking..." stays |
| Sidebar.DistinctMillisecondsUpdateLoadingBubble | extension/sidebar.js:69-88 | with distinct timestamps, and no earlier bubble carrying the loading bubble's id, the reply lands in the loading bubble |
| Sidebar.FailureLeavesConsecutiveUserTurns | extension/sidebar.js:66-95 | after a failed send, the next request's history ends with two user turns in a row |
| Sidebar.BackendSeesMessageTwice | extension/sidebar.js:70-81 | the sent history already ends with the user turn and the backend appends it again, so the model input ends with the message twice |
| Sidebar.ServerFailureBecomesModelTurn | extension/sidebar.js:85-91 | a 500 from `/chat` still resolves, so its apology is stored in history as a model turn |
| Sidebar.RunKeepsWellFormed | extension/sidebar.js:61-96 | across any run of typing, toggling and sends, the history starts with a user turn and every model turn directly follows a user turn |
| Overlay.Place | extension/overlay.js:34-58 | the box goes above the selection unless that top is below 8, and then it goes below; left is always at least 8; with room, left is at most innerWidth - width - 8; a centred left that fits is kept |
| Overlay.PlaceIsNearestAllowed | extension/overlay.js:51-54 | with room, the chosen left is the allowed position nearest the centred one |
| Overlay.NarrowWindowPinsLeft | extension/overlay.js:51-54 | in a window narrower than the box plus both paddings, left is 8 |
| Overlay.TopInsideDocument | extension/overlay.js:47-49 | the flipped top is at least 8 exactly when the selection's bottom lies inside the document, since it is not checked again |
| Overlay.PlaceMonotone | extension/overlay.js:41-54 | moving the selection right never moves the box left |
| Overlay.Remove | extension/overlay.js:29-32 | the current element is detached and forgotten |
| Overlay.Show | extension/overlay.js:3-16 | any existing overlay is removed first; the new one is attached, placed, and shows the loading text or nothing |
| Overlay.Markup | extension/overlay.js:21-26 | the text is placed verbatim, unescaped, between the opening markup and the footer |
| Overlay.ShownTextOfMarkup | extension/overlay.js:21-26 | the text can be read back unchanged from the markup |
| Overlay.Update | extension/overlay.js:18-27 | with no overlay nothing changes; otherwise the same element, in the same place, with the same attached elements, now reads back exactly the new text |
| Overlay.AtMostOneOverlay | extension/overlay.js:3-32 | from a page whose only attached overlay is the one `overlayEl` holds (or which has none), any sequence of shows, updates and removals keeps that shape, so at most one overlay is attached |
| Content.Gate | extension/content.js:11-16 | a missing or collapsed selection, or one whose trimmed text is shorter than 3, triggers nothing; otherwise the request text is a non-empty piece of the selection, at least 3 long, with no white space at either end |
| Content.Context | extension/content.js:23-24 | the context is a prefix of the parent's `innerText` of at most 400 characters, or "" when there is no parent element; a parent without `innerText` throws |
| Content.LoadingShownBeforeRequest | extension/content.js:21-34 | the loading overlay is shown first and is on the page when the request is posted; a page whose only attached overlay is the one `overlayEl` holds (or which has none) keeps that shape |
| Content.MissingInnerTextLeavesLoading | extension/content.js:21-26 | a selection inside an element without `innerText` posts nothing, so the overlay stays on "Explaining…" |
| Content.PostedRequestsPassValidation | extension/content.js:15-34 | every posted body passes the backend's validation and context normalisation, so the backend always calls the model and never records a validation error or a TypeError |
| Content.OnSettled | extension/content.js:36-39 | an open overlay shows the text and keeps its place; a dismissed overlay stays gone |
| Content.ServerErrorIsShown | extension/content.js:36-39 | a 500 from `/explain` resolves normally, and the overlay shows the server's apology |
| Content.UnavailableOnlyOnException | extension/content.js:36-39 | when every resolved body is an `/explain` body whose explanation differs from "Unable to explain this term right now.", that text is shown exactly when the request threw |

## Left out

- Process set-up is not modelled: Express, CORS, dotenv, `app.listen`, the
  startup API-key check and the model name. They are plumbing.
- Gemini and Opik internals are reduced to outcomes: what the model
  generates, how the tracked client nests spans, and what `flush` delivers.
  Each model call appears as an `Invoke` event with its prompt.
- Prompt wording is not modelled. A prompt is represented by the values it is
  built from.
- The wording of runtime TypeError messages is not modelled. The trace
  records the cause `TypeError`.
- `parseFloat` and floating point are not modelled. The parse is abstract,
  coordinates and scores are exact reals, and infinities, NaN coordinates
  and rounding are not represented.
- Backend.EvaluateClarity: a model result whose `text` getter itself throws
  is not represented separately. It falls under a thrown call, which is how
  the `try` block treats it.
- Backend.Chat: array elements of `history` are passed to the model as they
  are. The model does not check their role or shape.
- Sidebar.CompleteSend: a response body without a string `reply` is not
  modelled. The backend always sends one.
- Content.ShownFor: only a body without `explanation` renders as
  "undefined". Other non-string explanations are not modelled.
- String lengths count Unicode scalar values. JavaScript counts UTF-16 code
  units, so the 3-character gate and the 400-character slice can differ on
  text outside the Basic Multilingual Plane.
- DOM construction, CSS classes, scrolling, the focus `setTimeout`, the
  dismiss handlers and the debounce timer are not modelled. They are
  event-loop and UI concerns. The removal a dismiss handler performs is
  `Overlay.Remove`.
- Concurrent requests are not modelled. `Sidebar.RunKeepsWellFormed`
  assumes each reply arrives before the next step.

=== FILE: backend.dfy ===
/**
 The backend request pipeline: the `/explain` and `/chat` handlers and the
 clarity judge they use. Every collaborator the handlers call (the language
 model, the tracing client's `flush`, `parseFloat`) is abstracted to the
 outcome it produced, so each handler is a pure function from a request body
 and those outcomes to the HTTP response and the trace it leaves behind.
 */
module Backend {

  import opened Wrappers
  import opened Text
  import opened Wire
  import opened Tracing

  // ---------------------------------------------------------------------
  // Fixed names and texts

  const ExplainTraceName := "explain_financial_term"
  const ChatTraceName := "finance_chat"
  const ExplainTags: seq<string> := ["extension-backend", "finance", "explain"]
  const ChatTags: seq<string> := ["extension-backend", "finance", "chat"]
  const Anonymous := "anonymous"

  const GenerateExplanation := "generate_explanation"
  const ClarityEvaluation := "clarity_evaluation"
  const ChatTurn := "chat_turn"

  const ClarityMetric := "clarity_metric"
  const ClarityReason := "Automated heuristic via Gemini"
  /** The score text used when the judge returns nothing. */
  const DefaultScoreText := "0.5"
  /** The score used when the score text does not parse. */
  const NaNScore: real := 0.5
  /** The score used when the judge call throws. */
  const FailedScore: real := 0.0

  const ContextPlaceholder := "No additional context."
  const ExplainFallback := "I'm unsure how to explain this clearly."
  const ExplainFailure := "Sorry, I couldn't explain this right now."
  const ChatFallback := "I didn't get a response."
  const ChatFailure := "Sorry, something went wrong."

  // ---------------------------------------------------------------------
  // Collaborator outcomes

  /** What one `generateContent` call did: it returned a result whose `text`
      may be absent, or it threw. */
  datatype Call = Returned(text: Option<string>) | Threw(message: string)

  /** What the tracked client's `flush` did. */
  datatype FlushResult = Flushed | FlushThrew(message: string)

  /** The outcomes of the collaborators one `/explain` request meets, in the
      order it meets them. */
  datatype ExplainWorld = ExplainWorld(generation: Call, clarity: Call, flush: FlushResult)

  /** The outcomes of the collaborators one `/chat` request meets. */
  datatype ChatWorld = ChatWorld(reply: Call, flush: FlushResult)

  /** `parseFloat`, abstracted: `None` stands for NaN. */
  type Parser = string -> Option<real>

  /** The outcome of a handler's `try` block: it ran to its response, or it
      threw after issuing `events`. */
  datatype Attempt =
    | Completed(events: seq<Event>, response: Response)
    | Thrown(events: seq<Event>, cause: Cause)

  /** What a handler leaves behind: the trace it created and the response. */
  datatype Handled = Handled(trace: Trace, response: Response)

  // ---------------------------------------------------------------------
  // Small pieces

  /** `text || fallback` for a possibly absent string. */
  function OrElse(text: Option<string>, fallback: string): (r: string)
    ensures text.Some? && text.value != [] ==> r == text.value
    ensures text.None? || text.value == [] ==> r == fallback
  {
    if text.Some? && Truthy(text.value) then text.value else fallback
  }

  /** The text the clarity judge's answer is parsed from
      (`result.text?.trim() || "0.5"`): the default when the answer is absent
      or all white space, and otherwise the answer without surrounding white
      space. */
  function ScoreText(text: Option<string>): (r: string)
    ensures text.None? || AllSpace(text.value) ==> r == DefaultScoreText
    ensures text.Some? && !AllSpace(text.value) ==> r == Trim(text.value) && r != []
  {
    match text
    case None => DefaultScoreText
    case Some(t) => OrElse(Some(Trim(t)), DefaultScoreText)
  }

  /** `evaluateClarity`: a thrown judge call scores exactly 0; otherwise the
      parsed score text, with NaN replaced by 0.5. No clamping to [0, 1]. */
  function EvaluateClarity(call: Call, parse: Parser): (score: real)
    ensures call.Threw? ==> score == FailedScore
    ensures call.Returned? && call.text.Some? && !AllSpace(call.text.value) ==>
      var v := parse(Trim(call.text.value));
      score == if v.Some? then v.value else NaNScore
    ensures call.Returned? && (call.text.None? || AllSpace(call.text.value)) ==>
      var v := parse(DefaultScoreText);
      score == if v.Some? then v.value else NaNScore
  {
    match call
    case Threw(_) => FailedScore
    case Returned(t) =>
      match parse(ScoreText(t))
      case None => NaNScore
      case Some(v) => v
  }

  /** The `/explain` validation: `text` must be a non-empty string. */
  predicate ValidText(text: Field) {
    text.Str? && Truthy(text.s)
  }

  /** `safeContext`: a context that is absent, falsy or all white space is
      replaced by the placeholder; any other string is kept verbatim; a
      truthy non-string has no `trim` and raises a TypeError (`None`). */
  function NormaliseContext(context: Field): (r: Option<string>)
    ensures r.None? <==> context == NonString(true)
    ensures context.Str? && !AllSpace(context.s) ==> r == Some(context.s)
    ensures context.Missing? || context == NonString(false) || (context.Str? && AllSpace(context.s)) ==>
      r == Some(ContextPlaceholder)
  {
    match context
    case Missing => Some(ContextPlaceholder)
    case NonString(truthy) => if truthy then None else Some(ContextPlaceholder)
    case Str(s) => if Truthy(s) && |Trim(s)| > 0 then Some(s) else Some(ContextPlaceholder)
  }

  /** The `user_id` metadata (`req.body.user_id || "anonymous"`). */
  function UserMeta(userId: Field): (r: Field)
    ensures r.Truthy()
    ensures r == userId <==> userId.Truthy()
    ensures !userId.Truthy() ==> r == Str(Anonymous)
  {
    if userId.Truthy() then userId else Str(Anonymous)
  }

  /** The `catch` block shared by both handlers: record the error, end the
      trace, answer 500 with the fixed failure body. */
  function Conclude(header: Trace, attempt: Attempt, failure: Body): (h: Handled)
    // the trace keeps its header and everything the `try` block recorded
    ensures h.trace == header.(events := h.trace.events)
    ensures |attempt.events| <= |h.trace.events| && h.trace.events[..|attempt.events|] == attempt.events
    // a completed `try` block is passed through unchanged
    ensures attempt.Completed? ==> h.trace.events == attempt.events && h.response == attempt.response
    // a thrown one adds exactly one terminal state and one `end`, no model
    // call, and answers 500 with the failure body
    ensures attempt.Thrown? ==>
      && |h.trace.events| == |attempt.events| + 2
      && h.trace.events[|h.trace.events| - 2] == SetError(attempt.cause)
      && h.trace.events[|h.trace.events| - 1] == End
      && Terminals(h.trace.events) == Terminals(attempt.events) + 1
      && Ends(h.trace.events) == Ends(attempt.events) + 1
      && Invokes(h.trace.events) == Invokes(attempt.events)
      && h.response == Response(ServerError, failure)
  {
    match attempt
    case Completed(es, response) => Handled(header.(events := es), response)
    case Thrown(es, cause) =>
      CatchCounts(es, cause);
      Handled(header.(events := es + [SetError(cause), End]), Response(ServerError, failure))
  }

  // ---------------------------------------------------------------------
  // POST /explain

  /** The explanation the model's answer yields (`result.text || fallback`). */
  function Explanation(w: ExplainWorld): string
    requires w.generation.Returned?
  {
    OrElse(w.generation.text, ExplainFallback)
  }

  /** The `/explain` handler gets as far as `flush`: the text is valid, the
      context does not throw, and the generation call returns. */
  predicate ExplainReachesFlush(req: ExplainRequest, w: ExplainWorld) {
    ValidText(req.text) && NormaliseContext(req.context).Some? && w.generation.Returned?
  }

  /** The `try` block of the `/explain` handler. */
  function ExplainAttempt(req: ExplainRequest, traceId: string, w: ExplainWorld, parse: Parser): Attempt {
    if !ValidText(req.text) then Thrown([], InvalidText)
    else match NormaliseContext(req.context)
      case None => Thrown([], TypeError)
      case Some(context) =>
        var text := req.text.s;
        var generate := [Invoke(GenerateExplanation, ExplainPrompt(text, context))];
        match w.generation
        case Threw(m) => Thrown(generate, Upstream(m))
        case Returned(answer) =>
          var explanation := OrElse(answer, ExplainFallback);
          var clarity := EvaluateClarity(w.clarity, parse);
          var calls := generate + [
            Invoke(ClarityEvaluation, ClarityPrompt(text, explanation)),
            Score(ClarityMetric, clarity, ClarityReason)];
          var events := calls + [SetOutput(ExplainOutput(explanation, clarity)), End, Flush];
          match w.flush
          case FlushThrew(m) => Thrown(events, Upstream(m))
          case Flushed =>
            Completed(events, Response(Ok, ExplainBody(Trim(explanation), Some(traceId))))
  }

  /** `POST /explain`. */
  function Explain(req: ExplainRequest, traceId: string, w: ExplainWorld, parse: Parser): (h: Handled)
    // the trace is opened before anything else, with the request as input
    ensures h.trace.id == traceId
    ensures h.trace.name == ExplainTraceName && h.trace.tags == ExplainTags
    ensures h.trace.input == ExplainInput(req) && h.trace.metadata == Some(UserMeta(req.userId))
    // a missing, empty or non-string text fails before any model call
    ensures !ValidText(req.text) ==>
      h.trace.events == [SetError(InvalidText), End]
      && h.response == Response(ServerError, ExplainBody(ExplainFailure, None))
    // the model is called exactly when validation and context normalisation pass
    ensures Invokes(h.trace.events) == 0 <==>
      !ValidText(req.text) || NormaliseContext(req.context).None?
    // success exactly when the handler gets to flush and flush succeeds
    ensures h.response.status == Ok <==> ExplainReachesFlush(req, w) && w.flush.Flushed?
    ensures h.response.status != Ok ==>
      h.response == Response(ServerError, ExplainBody(ExplainFailure, None))
    // on success the client gets the trimmed explanation and the trace id,
    // while the trace output keeps the untrimmed text
    ensures h.response.status == Ok ==>
      h.response.body == ExplainBody(Trim(Explanation(w)), Some(h.trace.id))
      && SetOutput(ExplainOutput(Explanation(w), EvaluateClarity(w.clarity, parse))) in h.trace.events
    // the trace ends in exactly one terminal state unless flush throws after `end`
    ensures ExactlyOneTerminal(h.trace.events) <==> !(ExplainReachesFlush(req, w) && w.flush.FlushThrew?)
    ensures Ends(h.trace.events) >= 1
  {
    var header := Trace(traceId, ExplainTraceName, ExplainInput(req), ExplainTags, Some(UserMeta(req.userId)), []);
    var attempt := ExplainAttempt(req, traceId, w, parse);
    ExplainCounts(req, traceId, w, parse);
    Conclude(header, attempt, ExplainBody(ExplainFailure, None))
  }

  /** How many model calls, terminal writes and `end`s the `/explain`
      handler's `try` block issues before it returns or throws. */
  lemma ExplainCounts(req: ExplainRequest, traceId: string, w: ExplainWorld, parse: Parser)
    ensures var a := ExplainAttempt(req, traceId, w, parse);
      && (Invokes(a.events) == 0 <==> !ValidText(req.text) || NormaliseContext(req.context).None?)
      && (a.Completed? <==> ExplainReachesFlush(req, w) && w.flush.Flushed?)
      && (ExplainReachesFlush(req, w) ==> Terminals(a.events) == 1 && Ends(a.events) == 1)
      && (!ExplainReachesFlush(req, w) ==> Terminals(a.events) == 0 && Ends(a.events) == 0)
  {
    if ExplainReachesFlush(req, w) {
      ExplainReached(req, traceId, w, parse);
    } else {
      ExplainStopped(req, traceId, w, parse);
    }
  }

  /** The events of a handler that gets to `flush`: the generation call, the
      judge's call and score, then the output, `end` and `flush`. */
  lemma ExplainEvents(req: ExplainRequest, traceId: string, w: ExplainWorld, parse: Parser)
    requires ExplainReachesFlush(req, w)
    ensures var a := ExplainAttempt(req, traceId, w, parse);
      var clarity := EvaluateClarity(w.clarity, parse);
      a.events ==
        [Invoke(GenerateExplanation, ExplainPrompt(req.text.s, NormaliseContext(req.context).value))]
        + [Invoke(ClarityEvaluation, ClarityPrompt(req.text.s, Explanation(w))),
           Score(ClarityMetric, clarity, ClarityReason)]
        + [SetOutput(ExplainOutput(Explanation(w), clarity)), End, Flush]
  {
  }

  /** A handler that gets to `flush` has made both model calls and written
      the output and `end` once. */
  lemma ExplainReached(req: ExplainRequest, traceId: string, w: ExplainWorld, parse: Parser)
    requires ExplainReachesFlush(req, w)
    ensures var a := ExplainAttempt(req, traceId, w, parse);
      Terminals(a.events) == 1 && Ends(a.events) == 1 && Invokes(a.events) == 2
  {
    ExplainEvents(req, traceId, w, parse);
    var clarity := EvaluateClarity(w.clarity, parse);
    var generate := [Invoke(GenerateExplanation, ExplainPrompt(req.text.s, NormaliseContext(req.context).value))];
    var judge := [Invoke(ClarityEvaluation, ClarityPrompt(req.text.s, Explanation(w))),
                  Score(ClarityMetric, clarity, ClarityReason)];
    CountsCons(judge[1], []);
    CountsCons(judge[0], judge[1..]);
    CountsCons(generate[0], []);
    CountsAppend(generate, judge);
    FinishCounts(generate + judge, ExplainOutput(Explanation(w), clarity));
  }

  /** A handler that stops before `flush` throws having written nothing, with
      the generation call made exactly when the input was accepted. */
  lemma ExplainStopped(req: ExplainRequest, traceId: string, w: ExplainWorld, parse: Parser)
    requires !ExplainReachesFlush(req, w)
    ensures var a := ExplainAttempt(req, traceId, w, parse);
      && a.Thrown? && Terminals(a.events) == 0 && Ends(a.events) == 0
      && (Invokes(a.events) == 0 <==> !ValidText(req.text) || NormaliseContext(req.context).None?)
  {
    if ValidText(req.text) && NormaliseContext(req.context).Some? {
      var context := NormaliseContext(req.context).value;
      CountsCons(Invoke(GenerateExplanation, ExplainPrompt(req.text.s, context)), []);
    }
  }

  // ---------------------------------------------------------------------
  // POST /chat

  /** `history || []` spread into an array: a falsy history gives nothing, an
      array gives its elements, a non-empty string gives its characters one
      by one, and any other truthy value is not iterable (`None`). */
  function Spread(history: History): (r: Option<seq<Entry>>)
    ensures r.None? <==> history == Scalar(true)
    ensures history.NoHistory? || history == Scalar(false) ==> r == Some([])
    ensures history.Entries? ==> r == Some(history.entries)
    ensures history.Text? ==>
      (r.Some? && |r.value| == |history.s|
       && forall i :: 0 <= i < |r.value| ==> r.value[i] == Char(history.s[i]))
  {
    match history
    case NoHistory => Some([])
    case Entries(es) => Some(es)
    case Text(s) => Some(seq(|s|, i requires 0 <= i < |s| => Char(s[i])))
    case Scalar(truthy) => if truthy then None else Some([])
  }

  /** The model input: the spread history followed by exactly one user turn
      carrying the message. */
  function ChatContents(req: ChatRequest): (r: Option<seq<Entry>>)
    ensures r.None? <==> Spread(req.history).None?
    ensures r.Some? ==> r.value == Spread(req.history).value + [Turn(User, req.message)]
  {
    match Spread(req.history)
    case None => None
    case Some(entries) => Some(entries + [Turn(User, req.message)])
  }

  /** The reply the model's answer yields (`result.text || fallback`). */
  function Reply(w: ChatWorld): string
    requires w.reply.Returned?
  {
    OrElse(w.reply.text, ChatFallback)
  }

  /** The `/chat` handler gets as far as `flush`. */
  predicate ChatReachesFlush(req: ChatRequest, w: ChatWorld) {
    ChatContents(req).Some? && w.reply.Returned?
  }

  /** The `try` block of the `/chat` handler. */
  function ChatAttempt(req: ChatRequest, w: ChatWorld): Attempt {
    match ChatContents(req)
    case None => Thrown([], TypeError)
    case Some(contents) =>
      var call := [Invoke(ChatTurn, ChatPrompt(contents))];
      match w.reply
      case Threw(m) => Thrown(call, Upstream(m))
      case Returned(answer) =>
        var reply := OrElse(answer, ChatFallback);
        var events := call + [SetOutput(ChatOutput(reply)), End, Flush];
        match w.flush
        case FlushThrew(m) => Thrown(events, Upstream(m))
        case Flushed => Completed(events, Response(Ok, ChatBody(reply)))
  }

  /** `POST /chat`. The message is not validated. */
  function Chat(req: ChatRequest, traceId: string, w: ChatWorld): (h: Handled)
    ensures h.trace.id == traceId
    ensures h.trace.name == ChatTraceName && h.trace.tags == ChatTags
    ensures h.trace.input == ChatInput(req) && h.trace.metadata == None
    // the model sees the history followed by the new user turn
    ensures ChatContents(req).Some? ==>
      |h.trace.events| >= 1 && h.trace.events[0] == Invoke(ChatTurn, ChatPrompt(Spread(req.history).value + [Turn(User, req.message)]))
    ensures Invokes(h.trace.events) == 0 <==> ChatContents(req).None?
    // success exactly when the handler gets to flush and flush succeeds; a
    // successful response carries only a non-empty reply, and no trace id
    ensures h.response.status == Ok <==> ChatReachesFlush(req, w) && w.flush.Flushed?
    ensures h.response.status == Ok ==>
      h.response.body == ChatBody(Reply(w)) && Reply(w) != []
      && SetOutput(ChatOutput(Reply(w))) in h.trace.events
    // any failure answers 500 with the fixed reply, after recording the error and ending
    ensures h.response.status != Ok ==>
      h.response == Response(ServerError, ChatBody(ChatFailure))
      && |h.trace.events| >= 2 && h.trace.events[|h.trace.events| - 1] == End
      && h.trace.events[|h.trace.events| - 2].SetError?
    ensures ExactlyOneTerminal(h.trace.events) <==> !(ChatReachesFlush(req, w) && w.flush.FlushThrew?)
  {
    var header := Trace(traceId, ChatTraceName, ChatInput(req), ChatTags, None, []);
    var attempt := ChatAttempt(req, w);
    ChatCounts(req, w);
    Conclude(header, attempt, ChatBody(ChatFailure))
  }

  /** How many model calls, terminal writes and `end`s the `/chat` handler's
      `try` block issues before it returns or throws. */
  lemma ChatCounts(req: ChatRequest, w: ChatWorld)
    ensures var a := ChatAttempt(req, w);
      && (Invokes(a.events) == 0 <==> ChatContents(req).None?)
      && (ChatReachesFlush(req, w) ==> Terminals(a.events) == 1 && Ends(a.events) == 1)
      && (!ChatReachesFlush(req, w) ==> Terminals(a.events) == 0 && Ends(a.events) == 0)
  {
    var a := ChatAttempt(req, w);
    if ChatReachesFlush(req, w) {
      var call := [Invoke(ChatTurn, ChatPrompt(ChatContents(req).value))];
      assert a.events == call + [SetOutput(ChatOutput(Reply(w))), End, Flush];
      CountsCons(call[0], []);
      FinishCounts(call, ChatOutput(Reply(w)));
    }
  }
}

/** Properties of the backend handlers that relate several calls or single
    out one scenario. */
module BackendProperties {

  import opened Wrappers
  import opened Text
  import opened Wire
  import opened Tracing
  import opened Backend

  /** An absent or blank judge answer scores what `parseFloat("0.5")` gives,
      which is 0.5. */
  lemma ClarityDefaultsToHalf(call: Call, parse: Parser)
    requires parse(DefaultScoreText) == Some(0.5)
    requires call.Returned? && (call.text.None? || AllSpace(call.text.value))
    ensures EvaluateClarity(call, parse) == 0.5
  {
  }

  /** A thrown judge call scores 0, which differs from the 0.5 a missing or
      unparsable answer scores. */
  lemma ClarityThrowIsNotDefault(message: string, answer: Option<string>, parse: Parser)
    requires parse(ScoreText(answer)).None? || parse(DefaultScoreText) == Some(0.5)
    requires answer.None? || parse(ScoreText(answer)).None?
    ensures EvaluateClarity(Threw(message), parse) == 0.0
    ensures EvaluateClarity(Returned(answer), parse) == 0.5
  {
  }

  /** Whatever number the answer parses to is the score, inside [0, 1] or
      not: "3" scores 3. */
  lemma {:induction false} ClarityNotClamped(parse: Parser)
    requires parse("3") == Some(3.0)
    ensures EvaluateClarity(Returned(Some("3")), parse) == 3.0
  {
    PrintableNotSpace('3');
    TrimOfTrimmed("3");
  }

  /** A fixed text made of printable characters and spaces that starts and
      ends with a printable one is returned unchanged by `trim`. */
  lemma {:induction false} FallbacksSurviveTrim()
    ensures Trim(ExplainFallback) == ExplainFallback
    ensures Trim(ExplainFailure) == ExplainFailure
  {
    PrintableNotSpace('I');
    PrintableNotSpace('S');
    PrintableNotSpace('.');
    TrimOfTrimmed(ExplainFallback);
    TrimOfTrimmed(ExplainFailure);
  }

  /** A text of white space only passes validation and reaches the model. */
  lemma WhitespaceTextReachesModel(s: string, req: ExplainRequest, traceId: string, w: ExplainWorld, parse: Parser)
    requires s != [] && AllSpace(s) && req.text == Str(s)
    requires NormaliseContext(req.context).Some?
    ensures var h := Explain(req, traceId, w, parse);
      |h.trace.events| >= 1
      && h.trace.events[0] == Invoke(GenerateExplanation, ExplainPrompt(s, NormaliseContext(req.context).value))
  {
  }

  /** A request with a non-empty string text and a context that does not
      throw always reaches the model, and whatever fails afterwards is
      recorded as an upstream error, never a validation error or TypeError. */
  lemma WellFormedRequestFailsOnlyUpstream(req: ExplainRequest, traceId: string, w: ExplainWorld, parse: Parser)
    requires ValidText(req.text) && NormaliseContext(req.context).Some?
    ensures var h := Explain(req, traceId, w, parse);
      && Invokes(h.trace.events) >= 1
      && SetError(InvalidText) !in h.trace.events
      && SetError(TypeError) !in h.trace.events
  {
    var h := Explain(req, traceId, w, parse);
    var a := ExplainAttempt(req, traceId, w, parse);
    AcceptedFailsUpstream(req, traceId, w, parse);
    if a.Thrown? {
      assert h.trace.events == a.events + [SetError(a.cause), End];
    }
  }

  /** Once the input is accepted, the `try` block writes no error itself and
      can only throw an upstream error. */
  lemma AcceptedFailsUpstream(req: ExplainRequest, traceId: string, w: ExplainWorld, parse: Parser)
    requires ValidText(req.text) && NormaliseContext(req.context).Some?
    ensures var a := ExplainAttempt(req, traceId, w, parse);
      && (a.Thrown? ==> a.cause.Upstream?)
      && SetError(InvalidText) !in a.events && SetError(TypeError) !in a.events
  {
    if ExplainReachesFlush(req, w) {
      ExplainEvents(req, traceId, w, parse);
    }
  }

  /** When the model returns no text, the fallback sentence is what the judge
      scores, what the trace output records and, trimmed, what the client
      receives. */
  lemma {:induction false} EmptyAnswerUsesFallback(req: ExplainRequest, traceId: string, w: ExplainWorld, parse: Parser)
    requires ExplainReachesFlush(req, w)
    requires w.generation.text.None? || w.generation.text.value == []
    ensures var h := Explain(req, traceId, w, parse);
      && |h.trace.events| >= 4
      && h.trace.events[1] == Invoke(ClarityEvaluation, ClarityPrompt(req.text.s, ExplainFallback))
      && h.trace.events[3] == SetOutput(ExplainOutput(ExplainFallback, EvaluateClarity(w.clarity, parse)))
      && (w.flush.Flushed? ==> h.response.body == ExplainBody(ExplainFallback, Some(traceId)))
  {
    FallbacksSurviveTrim();
  }

  /** A successful `/explain` issues, in this order: the generation call,
      the judge call, the `clarity_metric` score, the output
      `{explanation, clarityScore}`, `end` and `flush`; only then the
      response. */
  lemma ExplainSuccessOrder(req: ExplainRequest, traceId: string, w: ExplainWorld, parse: Parser)
    requires ExplainReachesFlush(req, w) && w.flush.Flushed?
    ensures var e := Explanation(w); var score := EvaluateClarity(w.clarity, parse);
      Explain(req, traceId, w, parse).trace.events == [
        Invoke(GenerateExplanation, ExplainPrompt(req.text.s, NormaliseContext(req.context).value)),
        Invoke(ClarityEvaluation, ClarityPrompt(req.text.s, e)),
        Score(ClarityMetric, score, ClarityReason),
        SetOutput(ExplainOutput(e, score)),
        End,
        Flush]
  {
    ExplainEvents(req, traceId, w, parse);
  }

  /** A `flush` that throws after `end` sends the request through the catch
      block: the trace then holds both the output and the error, is ended
      twice, and the client gets a 500. */
  lemma {:induction false} ExplainFlushFailure(req: ExplainRequest, traceId: string, w: ExplainWorld, parse: Parser)
    requires ExplainReachesFlush(req, w) && w.flush.FlushThrew?
    ensures var h := Explain(req, traceId, w, parse);
      && Terminals(h.trace.events) == 2
      && Ends(h.trace.events) == 2
      && SetOutput(ExplainOutput(Explanation(w), EvaluateClarity(w.clarity, parse))) in h.trace.events
      && SetError(Upstream(w.flush.message)) in h.trace.events
      && h.response == Response(ServerError, ExplainBody(ExplainFailure, None))
  {
    var h := Explain(req, traceId, w, parse);
    var a := ExplainAttempt(req, traceId, w, parse);
    ExplainCounts(req, traceId, w, parse);
    assert h.trace.events == a.events + [SetError(Upstream(w.flush.message)), End];
  }

  /** A model answer made only of white space is not replaced by the
      fallback, so the client receives an empty explanation. */
  lemma WhitespaceAnswerIsEmptied(req: ExplainRequest, traceId: string, w: ExplainWorld, parse: Parser)
    requires ExplainReachesFlush(req, w) && w.flush.Flushed?
    requires w.generation.text.Some? && w.generation.text.value != [] && AllSpace(w.generation.text.value)
    ensures Explain(req, traceId, w, parse).response == Response(Ok, ExplainBody("", Some(traceId)))
    ensures Explanation(w) == w.generation.text.value
  {
  }

  /** A chat answer without text is replaced by the fixed reply. */
  lemma ChatEmptyAnswerUsesFallback(req: ChatRequest, traceId: string, w: ChatWorld)
    requires ChatReachesFlush(req, w) && w.flush.Flushed?
    requires w.reply.text.None? || w.reply.text.value == []
    ensures Chat(req, traceId, w).response == Response(Ok, ChatBody(ChatFallback))
  {
  }

  /** A chat `flush` that throws leaves both output and error on the trace,
      ends it twice and answers 500. */
  lemma {:induction false} ChatFlushFailure(req: ChatRequest, traceId: string, w: ChatWorld)
    requires ChatReachesFlush(req, w) && w.flush.FlushThrew?
    ensures var h := Chat(req, traceId, w);
      && Terminals(h.trace.events) == 2
      && Ends(h.trace.events) == 2
      && SetOutput(ChatOutput(Reply(w))) in h.trace.events
      && h.response == Response(ServerError, ChatBody(ChatFailure))
  {
    ChatCounts(req, w);
  }
}

=== FILE: content.dfy ===
/**
 The content script's `mouseup` handler (after its debounce): which
 selections trigger an explanation request, what text and context it sends,
 and what the overlay shows once the request settles. The selection, the
 overlay's rendered size and the window are parameters.
 */
module Content {

  import opened Wrappers
  import opened Text
  import opened Wire
  import opened Overlay
  import Backend
  import Tracing
  import BackendProperties

  /** Selections shorter than this, after trimming, are ignored. */
  const MinLength: nat := 3
  /** At most this many characters of the surrounding text are sent. */
  const ContextLimit: nat := 400
  const Unavailable := "Unable to explain this term right now."
  /** What a template literal renders for an absent `explanation`. */
  const Undefined := "undefined"

  /** The parent element of the selection's start container: there is none
      (`parentElement` is null), it has no `innerText` (an SVG or MathML
      element), or it is an HTML element with the given `innerText`. */
  datatype Parent = NoParent | NoInnerText | Inner(text: string)

  /** The current selection: whether it is collapsed, its text, the
      bounding rectangle of its first range, and the parent element of the
      range's start container. */
  datatype Selection = Selection(collapsed: bool, text: string, rect: Rect, parent: Parent)

  /** The text a selection is explained by, if it triggers a request at all:
      there must be a selection, it must not be collapsed, and its trimmed
      text must have at least `MinLength` characters. */
  function Gate(sel: Option<Selection>): (r: Option<string>)
    ensures r.None? <==> sel.None? || sel.value.collapsed || |Trim(sel.value.text)| < MinLength
    ensures r.Some? ==> r.value == Trim(sel.value.text) && |r.value| >= MinLength
    // the request text is a non-empty piece of the selection with no white
    // space at either end
    ensures r.Some? ==>
      && r.value != []
      && !IsSpace(r.value[0]) && !IsSpace(r.value[|r.value| - 1])
      && r.value == sel.value.text[Lead(sel.value.text)..Lead(sel.value.text) + |r.value|]
  {
    match sel
    case None => None
    case Some(s) =>
      if s.collapsed then None
      else
        var text := Trim(s.text);
        if |text| < MinLength then None else Some(text)
  }

  /** The context sent with the text: a prefix of the surrounding text of at
      most `ContextLimit` characters, all of it when it is short enough, and
      "" when there is no parent element. An element without `innerText`
      makes `.slice` throw a TypeError (`None`): the optional chain guards
      only a null parent. */
  function Context(parent: Parent): (c: Option<string>)
    ensures c.None? <==> parent.NoInnerText?
    ensures parent.NoParent? ==> c == Some("")
    ensures parent.Inner? ==> c.Some? && |c.value| <= ContextLimit && c.value <= parent.text
    ensures parent.Inner? && |parent.text| <= ContextLimit ==> c == Some(parent.text)
    ensures parent.Inner? && |parent.text| >= ContextLimit ==> |c.value| == ContextLimit
  {
    match parent
    case NoParent => Some("")
    case NoInnerText => None
    case Inner(t) => Some(SliceTo(t, ContextLimit))
  }

  /** What the handler does, in order. */
  datatype Effect = OverlayShown(loading: bool) | Posted(body: ExplainRequest)

  datatype Reaction = Reaction(page: Page, effects: seq<Effect>)

  /** The debounced `mouseup` handler up to the `fetch`: an ignored
      selection does nothing at all; otherwise the overlay is shown in its
      loading state first, and then `{text, context}` is posted, unless
      reading the context throws, which ends the handler before the `try`
      with nothing posted. */
  function OnMouseUp(page: Page, sel: Option<Selection>, size: Size, view: Viewport): (r: Reaction)
    ensures Gate(sel).None? ==> r == Reaction(page, [])
    ensures Gate(sel).Some? ==> r.page == Show(page, sel.value.rect, true, size, view)
    ensures Gate(sel).Some? && Context(sel.value.parent).None? ==> r.effects == [OverlayShown(true)]
    ensures Gate(sel).Some? && Context(sel.value.parent).Some? ==>
      r.effects == [OverlayShown(true),
                    Posted(ExplainRequest(Str(Gate(sel).value), Str(Context(sel.value.parent).value), Missing))]
  {
    match Gate(sel)
    case None => Reaction(page, [])
    case Some(text) =>
      var s := sel.value;
      var shown := Show(page, s.rect, true, size, view);
      match Context(s.parent)
      case None => Reaction(shown, [OverlayShown(true)])
      case Some(context) =>
        Reaction(shown, [OverlayShown(true), Posted(ExplainRequest(Str(text), Str(context), Missing))])
  }

  /** How the `fetch` settled: with a parsed body, whatever the HTTP status,
      or with an exception from `fetch` or `response.json()`. */
  datatype Settled = Resolved(body: Body) | Failed

  /** The text the overlay is updated with. */
  function ShownFor(outcome: Settled): (t: string)
    ensures outcome.Failed? ==> t == Unavailable
    ensures outcome.Resolved? && outcome.body.ExplainBody? ==> t == outcome.body.explanation
  {
    match outcome
    case Failed => Unavailable
    case Resolved(body) =>
      match body
      case ExplainBody(explanation, _) => explanation
      // a body without an `explanation` field: `data.explanation` is
      // `undefined`, which the template renders as "undefined"
      case ChatBody(_) => Undefined
  }

  /** The handler after the `fetch` settles: a still-open overlay shows the
      text and stays where it was placed; a dismissed one stays gone. */
  function OnSettled(page: Page, outcome: Settled): (r: Page)
    ensures page.current.None? ==> r == page
    ensures page.current.Some? ==>
      && r.current.Some?
      && ShownText(r.current.value.markup) == Some(ShownFor(outcome))
      && r.current.value.at == page.current.value.at
      && r.attached == page.attached
  {
    ShownTextOfMarkup(ShownFor(outcome));
    Update(page, ShownFor(outcome))
  }

  // ---------------------------------------------------------------------
  // Properties

  /** The loading overlay is shown first and is on the page when the request
      is posted, if one is. */
  lemma LoadingShownBeforeRequest(page: Page, sel: Option<Selection>, size: Size, view: Viewport)
    requires Gate(sel).Some?
    ensures var r := OnMouseUp(page, sel, size, view);
      && |r.effects| >= 1 && r.effects[0] == OverlayShown(true)
      && (forall i :: 1 <= i < |r.effects| ==> r.effects[i].Posted?)
      && r.page.current.Some? && r.page.current.value.markup == LoadingMarkup
      && (SingleOverlay(page) ==> SingleOverlay(r.page))
  {
    if SingleOverlay(page) {
      ShowKeepsSingle(page, sel.value.rect, true, size, view);
    }
  }

  /** Every text the script posts is a non-empty string and every context a
      string, so the backend never rejects the body or trips over the
      context: it always calls the model, and records neither a validation
      error nor a TypeError. */
  lemma PostedRequestsPassValidation(page: Page, sel: Option<Selection>, size: Size, view: Viewport,
                                     body: ExplainRequest,
                                     traceId: string, w: Backend.ExplainWorld, parse: Backend.Parser)
    requires Posted(body) in OnMouseUp(page, sel, size, view).effects
    ensures var h := Backend.Explain(body, traceId, w, parse);
      && Backend.ValidText(body.text)
      && Backend.NormaliseContext(body.context).Some?
      && Tracing.Invokes(h.trace.events) >= 1
      && Tracing.SetError(Tracing.InvalidText) !in h.trace.events
      && Tracing.SetError(Tracing.TypeError) !in h.trace.events
      && h.trace.metadata == Some(Str(Backend.Anonymous))
  {
    BackendProperties.WellFormedRequestFailsOnlyUpstream(body, traceId, w, parse);
  }

  /** A selection inside an element without `innerText` throws after the
      loading overlay is shown and before anything is posted, so no response
      ever replaces "Explaining…". */
  lemma MissingInnerTextLeavesLoading(page: Page, sel: Option<Selection>, size: Size, view: Viewport)
    requires Gate(sel).Some? && sel.value.parent.NoInnerText?
    ensures var r := OnMouseUp(page, sel, size, view);
      && (forall e :: e in r.effects ==> !e.Posted?)
      && r.page.current.Some? && r.page.current.value.markup == LoadingMarkup
  {
  }

  /** A 500 from `/explain` still resolves the `fetch`, so the overlay shows
      the server's apology; only an exception shows the script's own
      message. */
  lemma ServerErrorIsShown(page: Page, req: ExplainRequest, traceId: string,
                           w: Backend.ExplainWorld, parse: Backend.Parser)
    requires page.current.Some?
    requires Backend.Explain(req, traceId, w, parse).response.status != Ok
    ensures var body := Backend.Explain(req, traceId, w, parse).response.body;
      ShownText(OnSettled(page, Resolved(body)).current.value.markup) == Some(Backend.ExplainFailure)
  {
    ShownTextOfMarkup(Backend.ExplainFailure);
  }

  /** The script's own apology appears exactly when the request threw, as
      long as the backend answered with an explanation different from it. */
  lemma UnavailableOnlyOnException(outcome: Settled)
    requires outcome.Resolved? ==> outcome.body.ExplainBody? && outcome.body.explanation != Unavailable
    ensures ShownFor(outcome) == Unavailable <==> outcome.Failed?
  {
  }

}

=== FILE: overlay.dfy ===
/**
 The explanation overlay of the browser extension: a single floating box,
 placed above the selection and centred on it, flipped below when there is
 no room above, and clamped horizontally inside the window. Its size and the
 window's scroll offsets and width are parameters; coordinates are reals.
 */
module Overlay {

  import opened Wrappers

  const Padding: real := 8.0

  const LoadingMarkup := "<div class=\"fin-overlay-loading\">Explaining…</div>"
  /** The markup `updateOverlay` puts before and after the text. */
  const OpenMarkup := "\n    <div>"
  const CloseMarkup := "</div>\n    <div class=\"fin-overlay-footer\">\n      Educational only · Not financial advice\n    </div>\n  "

  /** The selection's bounding rectangle, in viewport coordinates. */
  datatype Rect = Rect(top: real, left: real, bottom: real, width: real)

  /** The overlay's rendered size. */
  datatype Size = Size(width: real, height: real)

  /** `window.scrollX`, `window.scrollY`, `window.innerWidth`. */
  datatype Viewport = Viewport(scrollX: real, scrollY: real, innerWidth: real)

  /** The overlay's `top` and `left` style, in document coordinates. */
  datatype Placement = Placement(top: real, left: real)

  function Max(a: real, b: real): real {
    if a >= b then a else b
  }

  function Min(a: real, b: real): real {
    if a <= b then a else b
  }

  /** The top that puts the box `Padding` above the selection. */
  function AboveTop(rect: Rect, size: Size, view: Viewport): real {
    rect.top + view.scrollY - size.height - Padding
  }

  /** The top that puts the box `Padding` below the selection. */
  function BelowTop(rect: Rect, view: Viewport): real {
    rect.bottom + view.scrollY + Padding
  }

  /** The left that centres the box on the selection. */
  function CentredLeft(rect: Rect, size: Size, view: Viewport): real {
    rect.left + view.scrollX + rect.width / 2.0 - size.width / 2.0
  }

  /** The largest left that keeps `Padding` between the box and the
      window's right edge. */
  function RightLimit(size: Size, view: Viewport): real {
    view.innerWidth - size.width - Padding
  }

  /** `positionOverlay`. The box goes above the selection unless that top
      would be less than `Padding`, in which case it goes below. Its left is
      never less than `Padding`; when the window leaves room for the box and
      both paddings it also keeps `Padding` from the right edge; a centred
      left that already fits is kept as it is. */
  function Place(rect: Rect, size: Size, view: Viewport): (p: Placement)
    ensures AboveTop(rect, size, view) >= Padding ==> p.top == AboveTop(rect, size, view)
    ensures AboveTop(rect, size, view) < Padding ==> p.top == BelowTop(rect, view)
    ensures p.left >= Padding
    ensures view.innerWidth - size.width >= 2.0 * Padding ==> p.left <= RightLimit(size, view)
    ensures Padding <= CentredLeft(rect, size, view) <= RightLimit(size, view) ==>
      p.left == CentredLeft(rect, size, view)
  {
    var top := AboveTop(rect, size, view);
    var top := if top < Padding then BelowTop(rect, view) else top;
    var left := Max(Padding, Min(CentredLeft(rect, size, view), RightLimit(size, view)));
    Placement(top, left)
  }

  /** When the window leaves room, the chosen left is the allowed position
      nearest to the centred one. */
  lemma PlaceIsNearestAllowed(rect: Rect, size: Size, view: Viewport, x: real)
    requires view.innerWidth - size.width >= 2.0 * Padding
    requires Padding <= x <= RightLimit(size, view)
    ensures var c := CentredLeft(rect, size, view); var l := Place(rect, size, view).left;
      (if l >= c then l - c else c - l) <= (if x >= c then x - c else c - x)
  {
  }

  /** In a window too narrow for the box and both paddings, the box is
      pinned at `Padding` from the left and overflows on the right. */
  lemma NarrowWindowPinsLeft(rect: Rect, size: Size, view: Viewport)
    requires view.innerWidth - size.width < 2.0 * Padding
    ensures Place(rect, size, view).left == Padding
  {
  }

  /** The flipped top is not checked again: the box keeps `Padding` from the
      document's top only when the selection's bottom lies inside the
      document. */
  lemma TopInsideDocument(rect: Rect, size: Size, view: Viewport)
    ensures rect.bottom + view.scrollY >= 0.0 ==> Place(rect, size, view).top >= Padding
    ensures AboveTop(rect, size, view) < Padding && rect.bottom + view.scrollY < 0.0 ==>
      Place(rect, size, view).top < Padding
  {
  }

  /** Moving the selection right never moves the box left. */
  lemma PlaceMonotone(rect: Rect, rect': Rect, size: Size, view: Viewport)
    requires rect'.left >= rect.left && rect'.width == rect.width
    ensures Place(rect', size, view).left >= Place(rect, size, view).left
  {
  }

  // ---------------------------------------------------------------------
  // The single overlay

  /** One overlay element: a serial number standing for its identity, its
      markup, and where it was placed. */
  datatype Box = Box(serial: nat, markup: string, at: Placement)

  /** The page as far as overlays go: the serials of the overlay elements
      attached to the document, the element the module variable `overlayEl`
      holds, and the serial the next created element gets. */
  datatype Page = Page(attached: seq<nat>, current: Option<Box>, nextSerial: nat)

  /** `s` with every occurrence of `v` removed (`element.remove()`). */
  function Without(s: seq<nat>, v: nat): (r: seq<nat>)
    ensures |r| <= |s|
    ensures forall x :: x in r <==> x in s && x != v
  {
    if s == [] then []
    else if s[0] == v then Without(s[1..], v)
    else [s[0]] + Without(s[1..], v)
  }

  /** The page holds at most the overlay `overlayEl` refers to: none when it
      is null, exactly that one otherwise. */
  predicate SingleOverlay(p: Page) {
    match p.current
    case None => p.attached == []
    case Some(b) => p.attached == [b.serial]
  }

  /** `removeOverlay`: detach the current element, if any, and forget it. */
  function Remove(p: Page): (r: Page)
    ensures r.current.None? && r.nextSerial == p.nextSerial
    ensures p.current.Some? ==> forall x :: x in r.attached <==> x in p.attached && x != p.current.value.serial
    ensures p.current.None? ==> r.attached == p.attached
  {
    match p.current
    case None => p
    case Some(b) => Page(Without(p.attached, b.serial), None, p.nextSerial)
  }

  /** `showOverlay`: remove any existing overlay, then create, attach and
      place a new one, showing the loading text or nothing. `size` is the
      size the new element renders at. */
  function Show(p: Page, rect: Rect, loading: bool, size: Size, view: Viewport): (r: Page)
    ensures r.current == Some(Box(p.nextSerial, if loading then LoadingMarkup else "", Place(rect, size, view)))
    ensures r.nextSerial == p.nextSerial + 1
    ensures forall x :: x in r.attached <==>
      x == p.nextSerial || (x in p.attached && (p.current.Some? ==> x != p.current.value.serial))
  {
    var cleared := Remove(p);
    var box := Box(p.nextSerial, if loading then LoadingMarkup else "", Place(rect, size, view));
    Page(cleared.attached + [box.serial], Some(box), p.nextSerial + 1)
  }

  /** The markup `updateOverlay` writes: the text, inserted without any
      escaping, followed by the fixed footer. */
  function Markup(text: string): (m: string)
    ensures |m| == |OpenMarkup| + |text| + |CloseMarkup|
    ensures m[..|OpenMarkup|] == OpenMarkup
    ensures m[|OpenMarkup|..|OpenMarkup| + |text|] == text
    ensures m[|m| - |CloseMarkup|..] == CloseMarkup
  {
    OpenMarkup + text + CloseMarkup
  }

  /** The text an overlay's markup shows, when the markup has the
      `updateOverlay` shape. */
  function ShownText(m: string): (t: Option<string>)
    ensures t.Some? ==> m == OpenMarkup + t.value + CloseMarkup
  {
    if |m| >= |OpenMarkup| + |CloseMarkup| && m[..|OpenMarkup|] == OpenMarkup
       && m[|m| - |CloseMarkup|..] == CloseMarkup
    then
      var t := m[|OpenMarkup|..|m| - |CloseMarkup|];
      assert m == m[..|OpenMarkup|] + t + m[|m| - |CloseMarkup|..];
      Some(t)
    else None
  }

  /** Any text, markup included, can be read back unchanged from the markup
      string. */
  lemma ShownTextOfMarkup(text: string)
    ensures ShownText(Markup(text)) == Some(text)
  {
    var m := Markup(text);
    assert m[|OpenMarkup|..|m| - |CloseMarkup|] == text;
  }

  /** `updateOverlay`: with no overlay, nothing happens; otherwise the
      current overlay's markup is replaced and nothing else changes — in
      particular the box is not placed again. */
  function Update(p: Page, text: string): (r: Page)
    ensures p.current.None? ==> r == p
    ensures r.attached == p.attached && r.nextSerial == p.nextSerial
    ensures r.current.Some? <==> p.current.Some?
    // the same element, in the same place, now shows the new text
    ensures p.current.Some? ==>
      && ShownText(r.current.value.markup) == Some(text)
      && r.current.value.serial == p.current.value.serial
      && r.current.value.at == p.current.value.at
  {
    match p.current
    case None => p
    case Some(b) =>
      ShownTextOfMarkup(text);
      p.(current := Some(b.(markup := Markup(text))))
  }

  /** Each operation keeps the page down to at most one overlay. */
  lemma RemoveKeepsSingle(p: Page)
    requires SingleOverlay(p)
    ensures SingleOverlay(Remove(p)) && Remove(p).attached == []
  {
    if p.current.Some? {
      assert Remove(p).attached == Without([p.current.value.serial], p.current.value.serial);
    }
  }

  lemma ShowKeepsSingle(p: Page, rect: Rect, loading: bool, size: Size, view: Viewport)
    requires SingleOverlay(p)
    ensures SingleOverlay(Show(p, rect, loading, size, view))
  {
    RemoveKeepsSingle(p);
  }

  /** An operation on the overlay, as the content script and the dismiss
      handlers issue them. */
  datatype Op =
    | ShowOp(rect: Rect, loading: bool, size: Size, view: Viewport)
    | UpdateOp(text: string)
    | RemoveOp

  function Perform(p: Page, op: Op): Page {
    match op
    case ShowOp(rect, loading, size, view) => Show(p, rect, loading, size, view)
    case UpdateOp(text) => Update(p, text)
    case RemoveOp => Remove(p)
  }

  function PerformAll(p: Page, ops: seq<Op>): Page
    decreases |ops|
  {
    if ops == [] then p else PerformAll(Perform(p, ops[0]), ops[1..])
  }

  /** Whatever sequence of shows, updates and removals happens, a page whose
      only attached overlay is the one `overlayEl` holds keeps that shape,
      so it never holds more than one. */
  lemma {:induction false} AtMostOneOverlay(p: Page, ops: seq<Op>)
    requires SingleOverlay(p)
    ensures SingleOverlay(PerformAll(p, ops))
    ensures |PerformAll(p, ops).attached| <= 1
    decreases |ops|
  {
    if ops != [] {
      if ops[0].ShowOp? {
        ShowKeepsSingle(p, ops[0].rect, ops[0].loading, ops[0].size, ops[0].view);
      } else if ops[0].RemoveOp? {
        RemoveKeepsSingle(p);
      }
      AtMostOneOverlay(Perform(p, ops[0]), ops[1..]);
    }
  }
}

=== FILE: sidebar.dfy ===
/**
 The chat sidebar of the browser extension: the open/closed toggle, the
 local conversation history it resends with every message, and the message
 bubbles it shows, which it addresses by an id built from a millisecond
 timestamp. Clock readings and the outcome of the `fetch` are parameters.
 */
module Sidebar {

  import opened Wrappers
  import opened Text
  import opened Wire
  import Backend

  const Greeting := "Hello! How can I help you with your finance questions today?"
  const Thinking := "Thinking..."
  const SendFailure := "Sorry, something went wrong."
  const IdPrefix := "msg-"

  /** One message bubble. The greeting bubble built into the sidebar has no id. */
  datatype Message = Message(id: Option<string>, role: Role, text: string)

  datatype State = State(
    isOpen: bool,
    input: string,           // the text area's current value
    history: seq<Entry>,     // the local `chatHistory`
    messages: seq<Message>)  // the bubbles, in document order

  /** The sidebar as `initSidebar` builds it: closed, with an empty input
      and history and one greeting bubble. The greeting has no id, so no
      `updateMessage` can ever reach it. */
  function Init(): (r: State)
    ensures !r.isOpen && r.input == "" && r.history == [] && WellFormed(r.history)
    ensures |r.messages| == 1 && r.messages[0].role == Model && r.messages[0].text == Greeting
    ensures forall id :: FindMessage(r.messages, id).None?
  {
    State(false, "", [], [Message(None, Model, Greeting)])
  }

  /** `toggleSidebar`: flips `isOpen` and changes nothing else. */
  function Toggle(s: State): (r: State)
    ensures r.isOpen != s.isOpen
    ensures r.(isOpen := s.isOpen) == s
  {
    s.(isOpen := !s.isOpen)
  }

  /** Toggling twice restores the original state. */
  lemma ToggleTwice(s: State)
    ensures Toggle(Toggle(s)) == s
  {
  }

  // ---------------------------------------------------------------------
  // Message bubbles

  /** The id `addMessageToUI` gives a bubble created at millisecond `now`. */
  function MessageId(now: nat): string {
    IdPrefix + NatToString(now)
  }

  /** Two bubbles get the same id exactly when they are created in the same
      millisecond. */
  lemma {:induction false} MessageIdsCollide(a: nat, b: nat)
    ensures MessageId(a) == MessageId(b) <==> a == b
  {
    if MessageId(a) == MessageId(b) {
      assert NatToString(a) == MessageId(a)[|IdPrefix|..] == MessageId(b)[|IdPrefix|..] == NatToString(b);
      NatToStringInjective(a, b);
    }
  }

  /** `addMessageToUI`: append a bubble stamped with `now`; return its id. */
  function AddMessage(ms: seq<Message>, role: Role, text: string, now: nat): (r: (seq<Message>, string))
    ensures r.0 == ms + [Message(Some(r.1), role, text)]
    ensures r.1 == MessageId(now)
    // when no earlier bubble was stamped in the same millisecond, the id
    // finds the new bubble
    ensures (forall j :: 0 <= j < |ms| ==> ms[j].id != Some(MessageId(now))) ==>
      FindMessage(r.0, r.1) == Some(|ms|)
  {
    var id := MessageId(now);
    FindAppended(ms, Message(Some(id), role, text), id);
    (ms + [Message(Some(id), role, text)], id)
  }

  /** A bubble appended under an id no earlier bubble carries is the one
      that id finds. */
  lemma FindAppended(ms: seq<Message>, m: Message, id: string)
    ensures m.id == Some(id) && (forall j :: 0 <= j < |ms| ==> ms[j].id != Some(id)) ==>
      FindMessage(ms + [m], id) == Some(|ms|)
  {
    if m.id == Some(id) && forall j :: 0 <= j < |ms| ==> ms[j].id != Some(id) {
      var all := ms + [m];
      assert all[|ms|].id == Some(id);
      assert forall j :: 0 <= j < |ms| ==> all[j] == ms[j];
    }
  }

  /** `i` is the position of the first bubble carrying `id`, the one
      `document.getElementById` finds. */
  predicate FirstWithId(ms: seq<Message>, id: string, i: int) {
    0 <= i < |ms| && ms[i].id == Some(id) && forall j :: 0 <= j < i ==> ms[j].id != Some(id)
  }

  /** `document.getElementById`: the first bubble carrying `id`, if any. */
  function FindMessage(ms: seq<Message>, id: string): (r: Option<nat>)
    ensures r.Some? ==> FirstWithId(ms, id, r.value)
    ensures r.None? ==> forall j :: 0 <= j < |ms| ==> ms[j].id != Some(id)
  {
    if ms == [] then None
    else if ms[0].id == Some(id) then Some(0)
    else match FindMessage(ms[1..], id)
      case None => None
      case Some(k) => Some(k + 1)
  }

  /** `updateMessageUI`: rewrite the text of the first bubble carrying `id`;
      every other bubble, and the order, stay as they were. */
  function UpdateMessage(ms: seq<Message>, id: string, text: string): (r: seq<Message>)
    ensures |r| == |ms|
    ensures forall i :: 0 <= i < |ms| ==>
      r[i] == (if FirstWithId(ms, id, i) then ms[i].(text := text) else ms[i])
  {
    match FindMessage(ms, id)
    case None => ms
    case Some(k) => ms[k := ms[k].(text := text)]
  }

  // ---------------------------------------------------------------------
  // Sending a message

  /** What `fetch` and `response.json()` produced: a body whose `reply` is
      a string (whatever the HTTP status), or an exception. */
  datatype Outcome = Received(reply: string) | Failed

  /** A request in flight: the loading bubble's id and the body sent. */
  datatype Pending = Pending(loadingId: string, request: ChatRequest)

  datatype Sent = Sent(state: State, pending: Option<Pending>)

  /** The user turn the sidebar stores for `text`. */
  function UserTurn(text: string): Entry {
    Turn(User, Str(text))
  }

  /** The model turn the sidebar stores for `text`. */
  function ModelTurn(text: string): Entry {
    Turn(Model, Str(text))
  }

  /** `handleSendMessage` up to the `fetch` call, with `userMs` and
      `loadingMs` the two clock readings it takes. A blank input changes
      nothing and sends nothing. Otherwise the input is cleared, the user
      bubble and a loading bubble are added, the user turn is appended to the
      history, and the request carries the trimmed text and the history that
      already ends with that turn. */
  function BeginSend(s: State, userMs: nat, loadingMs: nat): (r: Sent)
    ensures AllSpace(s.input) <==> r.pending.None?
    ensures AllSpace(s.input) ==> r.state == s
    ensures !AllSpace(s.input) ==>
      var text := Trim(s.input);
      && text != []
      && r.state == State(s.isOpen, "", s.history + [UserTurn(text)],
           s.messages + [Message(Some(MessageId(userMs)), User, text),
                         Message(Some(MessageId(loadingMs)), Model, Thinking)])
      && r.pending == Some(Pending(MessageId(loadingMs), ChatRequest(Str(text), Entries(r.state.history))))
  {
    var text := Trim(s.input);
    if !Truthy(text) then Sent(s, None)
    else
      var withUser := AddMessage(s.messages, User, text, userMs).0;
      var history := s.history + [UserTurn(text)];
      var withLoading := AddMessage(withUser, Model, Thinking, loadingMs);
      Sent(State(s.isOpen, "", history, withLoading.0),
           Some(Pending(withLoading.1, ChatRequest(Str(text), Entries(history)))))
  }

  /** `handleSendMessage` after `fetch`: on a reply, the loading bubble shows
      it and exactly one model turn carrying it is appended; on a failure the
      loading bubble shows the fixed apology and the history is left as it
      was, ending with the user turn. */
  function CompleteSend(s: State, p: Pending, outcome: Outcome): (r: State)
    ensures r.isOpen == s.isOpen && r.input == s.input
    ensures outcome.Received? ==>
      r.history == s.history + [ModelTurn(outcome.reply)]
      && r.messages == UpdateMessage(s.messages, p.loadingId, outcome.reply)
    ensures outcome.Failed? ==>
      r.history == s.history && r.messages == UpdateMessage(s.messages, p.loadingId, SendFailure)
  {
    match outcome
    case Received(reply) =>
      s.(messages := UpdateMessage(s.messages, p.loadingId, reply),
         history := s.history + [ModelTurn(reply)])
    case Failed =>
      s.(messages := UpdateMessage(s.messages, p.loadingId, SendFailure))
  }

  /** One whole send whose response arrives before anything else happens. */
  function Send(s: State, userMs: nat, loadingMs: nat, outcome: Outcome): State {
    var sent := BeginSend(s, userMs, loadingMs);
    match sent.pending
    case None => sent.state
    case Some(p) => CompleteSend(sent.state, p, outcome)
  }

  // ---------------------------------------------------------------------
  // Properties

  /** When both clock readings of one send fall in the same millisecond and
      no earlier bubble has that id, the reply overwrites the user's own
      bubble and the loading bubble keeps showing "Thinking...". */
  lemma SameMillisecondOverwritesUserBubble(s: State, now: nat, reply: string)
    requires !AllSpace(s.input)
    requires forall j :: 0 <= j < |s.messages| ==> s.messages[j].id != Some(MessageId(now))
    ensures var r := Send(s, now, now, Received(reply));
      && |r.messages| == |s.messages| + 2
      && r.messages[|s.messages|] == Message(Some(MessageId(now)), User, reply)
      && r.messages[|s.messages| + 1] == Message(Some(MessageId(now)), Model, Thinking)
  {
    var sent := BeginSend(s, now, now);
    var ms := sent.state.messages;
    assert FirstWithId(ms, MessageId(now), |s.messages|);
  }

  /** With distinct clock readings and no earlier bubble carrying the
      loading id, the reply lands in the loading bubble. */
  lemma DistinctMillisecondsUpdateLoadingBubble(s: State, userMs: nat, loadingMs: nat, reply: string)
    requires !AllSpace(s.input) && userMs != loadingMs
    requires forall j :: 0 <= j < |s.messages| ==> s.messages[j].id != Some(MessageId(loadingMs))
    ensures var r := Send(s, userMs, loadingMs, Received(reply));
      && |r.messages| == |s.messages| + 2
      && r.messages[|s.messages|] == Message(Some(MessageId(userMs)), User, Trim(s.input))
      && r.messages[|s.messages| + 1] == Message(Some(MessageId(loadingMs)), Model, reply)
  {
    MessageIdsCollide(userMs, loadingMs);
    var sent := BeginSend(s, userMs, loadingMs);
    var ms := sent.state.messages;
    assert FirstWithId(ms, MessageId(loadingMs), |s.messages| + 1);
  }

  /** After a failed send, the next send's history ends with two user turns
      in a row: the unanswered one and the new one. */
  lemma FailureLeavesConsecutiveUserTurns(s: State, ms1: nat, ms2: nat, next: string, ms3: nat, ms4: nat)
    requires !AllSpace(s.input) && !AllSpace(next)
    ensures var failed := Send(s, ms1, ms2, Failed);
      var again := BeginSend(failed.(input := next), ms3, ms4);
      var h := again.pending.value.request.history.entries;
      && failed.history == s.history + [UserTurn(Trim(s.input))]
      && |h| >= 2
      && h[|h| - 2] == UserTurn(Trim(s.input))
      && h[|h| - 1] == UserTurn(Trim(next))
  {
  }

  /** The history the sidebar sends already ends with the new user turn and
      the backend appends the message once more, so the model sees the new
      message twice in a row. */
  lemma BackendSeesMessageTwice(s: State, userMs: nat, loadingMs: nat)
    requires !AllSpace(s.input)
    ensures var p := BeginSend(s, userMs, loadingMs).pending.value;
      var contents := Backend.ChatContents(p.request);
      && contents.Some?
      && contents.value == s.history + [UserTurn(Trim(s.input)), UserTurn(Trim(s.input))]
  {
  }

  /** A `/chat` failure still resolves the `fetch`, so the server's apology
      is stored in the history as a model turn. */
  lemma ServerFailureBecomesModelTurn(s: State, p: Pending, traceId: string, w: Backend.ChatWorld)
    requires Backend.Chat(p.request, traceId, w).response.status != Ok
    ensures var body := Backend.Chat(p.request, traceId, w).response.body;
      CompleteSend(s, p, Received(body.reply)).history == s.history + [ModelTurn(Backend.ChatFailure)]
  {
  }

  /** A conversation history as the sidebar builds it: turns only, with
      string texts; it starts with a user turn, and every model turn directly
      follows a user turn. */
  predicate WellFormed(h: seq<Entry>) {
    && (forall i :: 0 <= i < |h| ==> h[i].Turn? && h[i].text.Str?)
    && (h != [] ==> h[0].role == User)
    && (forall i :: 0 < i < |h| && h[i].role == Model ==> h[i - 1].role == User)
  }

  /** Something the user does in the sidebar. */
  datatype Step =
    | Type(text: string)
    | Press(userMs: nat, loadingMs: nat, outcome: Outcome)
    | ToggleOpen

  function Apply(s: State, step: Step): State {
    match step
    case Type(text) => s.(input := text)
    case Press(userMs, loadingMs, outcome) => Send(s, userMs, loadingMs, outcome)
    case ToggleOpen => Toggle(s)
  }

  /** The state after a sequence of steps, each send completing before the
      next step. */
  function Run(s: State, steps: seq<Step>): State
    decreases |steps|
  {
    if steps == [] then s else Run(Apply(s, steps[0]), steps[1..])
  }

  /** Appending a user turn keeps a history well formed. */
  lemma AppendUserKeepsWellFormed(h: seq<Entry>, text: string)
    requires WellFormed(h)
    ensures WellFormed(h + [UserTurn(text)])
  {
  }

  /** Appending a model turn right after a user turn keeps a history well
      formed. */
  lemma AppendModelKeepsWellFormed(h: seq<Entry>, text: string)
    requires WellFormed(h) && h != [] && h[|h| - 1].role == User
    ensures WellFormed(h + [ModelTurn(text)])
  {
  }

  /** One step keeps the history well formed. */
  lemma ApplyKeepsWellFormed(s: State, step: Step)
    requires WellFormed(s.history)
    ensures WellFormed(Apply(s, step).history)
  {
    if step.Press? {
      var sent := BeginSend(s, step.userMs, step.loadingMs);
      if sent.pending.Some? {
        var text := Trim(s.input);
        var h1 := sent.state.history;
        assert h1 == s.history + [UserTurn(text)];
        AppendUserKeepsWellFormed(s.history, text);
        if step.outcome.Received? {
          AppendModelKeepsWellFormed(h1, step.outcome.reply);
        }
      }
    }
  }

  /** However the user types, toggles and sends, as long as each reply
      arrives before the next step, the history stays well formed: model
      turns never outnumber the user turns before them. */
  lemma {:induction false} RunKeepsWellFormed(s: State, steps: seq<Step>)
    requires WellFormed(s.history)
    ensures WellFormed(Run(s, steps).history)
    decreases |steps|
  {
    if steps != [] {
      ApplyKeepsWellFormed(s, steps[0]);
      RunKeepsWellFormed(Apply(s, steps[0]), steps[1..]);
    }
  }

}

=== FILE: text.dfy ===
/**
 Strings as the browser and Node.js runtimes treat them: `String.prototype.trim`,
 JavaScript string truthiness, `slice(0, n)` and the decimal rendering of a
 millisecond timestamp.
 */
module Text {

  /** The characters `String.prototype.trim` strips: the ECMAScript WhiteSpace
      and LineTerminator code points, the plain space first. */
  const SpaceChars: seq<char> := [
    ' ', '\t', '\n', '\U{000B}', '\U{000C}', '\r', '\U{00A0}', '\U{1680}',
    '\U{2000}', '\U{2001}', '\U{2002}', '\U{2003}', '\U{2004}', '\U{2005}',
    '\U{2006}', '\U{2007}', '\U{2008}', '\U{2009}', '\U{200A}',
    '\U{2028}', '\U{2029}', '\U{202F}', '\U{205F}', '\U{3000}', '\U{FEFF}'
  ]

  /** `c` occurs in `cs`, looked up one character at a time. Equivalent to
      `c in cs`; written recursively so that the verifier unfolds the
      25-character list only as far as a proof needs, under its fuel limit,
      rather than facing the whole membership at every use of `IsSpace`. */
  predicate Listed(c: char, cs: seq<char>) {
    |cs| > 0 && (cs[0] == c || Listed(c, cs[1..]))
  }

  predicate IsSpace(c: char) {
    Listed(c, SpaceChars)
  }

  /** A character outside every listed one is not listed. */
  lemma {:induction false} NotListed(c: char, cs: seq<char>)
    requires forall i :: 0 <= i < |cs| ==> cs[i] != c
    ensures !Listed(c, cs)
  {
    if |cs| > 0 {
      NotListed(c, cs[1..]);
    }
  }

  /** Printable ASCII other than the space is never trimmed. */
  lemma PrintableNotSpace(c: char)
    requires '!' <= c <= '~'
    ensures !IsSpace(c)
  {
    forall i | 0 <= i < |SpaceChars|
      ensures SpaceChars[i] != c
    {
      assert SpaceChars[i] < '!' || '~' < SpaceChars[i];
    }
    NotListed(c, SpaceChars);
  }

  /** Every character of `s` is white space (vacuously true of ""). */
  predicate AllSpace(s: string) {
    forall i :: 0 <= i < |s| ==> IsSpace(s[i])
  }

  /** The index of the first non-space character of `s` at or after `i`, or
      `|s|` when there is none. */
  function SkipSpace(s: string, i: nat): (k: nat)
    requires i <= |s|
    ensures i <= k <= |s|
    ensures forall j :: i <= j < k ==> IsSpace(s[j])
    ensures k < |s| ==> !IsSpace(s[k])
    decreases |s| - i
  {
    if i < |s| && IsSpace(s[i]) then SkipSpace(s, i + 1) else i
  }

  /** The index just past the last non-space character of `s` in `[lo, j)`,
      or `lo` when there is none. */
  function SkipSpaceBack(s: string, lo: nat, j: nat): (e: nat)
    requires lo <= j <= |s|
    ensures lo <= e <= j
    ensures forall i :: e <= i < j ==> IsSpace(s[i])
    ensures lo < e ==> !IsSpace(s[e - 1])
    decreases j
  {
    if lo < j && IsSpace(s[j - 1]) then SkipSpaceBack(s, lo, j - 1) else j
  }

  /** How many leading white-space characters `s` has. */
  function Lead(s: string): (k: nat)
    ensures k <= |s|
  {
    SkipSpace(s, 0)
  }

  /** `s.trim()`: the contiguous middle of `s` between its leading and trailing
      white space. It is empty exactly when `s` is all white space, and
      otherwise starts and ends with a non-space character. */
  function Trim(s: string): (r: string)
    ensures Lead(s) + |r| <= |s|
    ensures r == s[Lead(s)..Lead(s) + |r|]
    ensures forall i :: 0 <= i < Lead(s) ==> IsSpace(s[i])
    ensures forall i :: Lead(s) + |r| <= i < |s| ==> IsSpace(s[i])
    ensures r == [] <==> AllSpace(s)
    ensures r != [] ==> !IsSpace(r[0]) && !IsSpace(r[|r| - 1])
  {
    var k := Lead(s);
    var e := SkipSpaceBack(s, k, |s|);
    s[k..e]
  }

  /** A string with no leading or trailing white space is its own trim. */
  lemma TrimOfTrimmed(s: string)
    requires s == [] || (!IsSpace(s[0]) && !IsSpace(s[|s| - 1]))
    ensures Trim(s) == s
  {
    if s != [] {
      assert Lead(s) == 0;
      assert SkipSpaceBack(s, 0, |s|) == |s|;
    }
  }

  /** JavaScript truthiness of a string: only "" is falsy. */
  predicate Truthy(s: string) {
    s != []
  }

  /** `s.slice(0, n)` for n >= 0: the first `n` characters, or all of `s`. */
  function SliceTo(s: string, n: nat): (r: string)
    ensures |r| <= n && r <= s
    ensures |s| <= n ==> r == s
    ensures |s| >= n ==> |r| == n
  {
    if |s| <= n then s else s[..n]
  }

  /** The character of a decimal digit. */
  function DigitChar(d: nat): (c: char)
    requires d < 10
    ensures '0' <= c <= '9'
    ensures c as int - '0' as int == d
  {
    ['0', '1', '2', '3', '4', '5', '6', '7', '8', '9'][d]
  }

  /** `String(n)` for a non-negative integer: its decimal digits, most
      significant first, without leading zeros. */
  function NatToString(n: nat): (r: string)
    ensures 1 <= |r|
    ensures forall i :: 0 <= i < |r| ==> '0' <= r[i] <= '9'
    ensures n < 10 <==> |r| == 1
  {
    if n < 10 then [DigitChar(n)] else NatToString(n / 10) + [DigitChar(n % 10)]
  }

  /** Distinct numbers render as distinct strings, so a rendered number can be
      told apart from every other. */
  lemma {:induction false} NatToStringInjective(a: nat, b: nat)
    requires NatToString(a) == NatToString(b)
    ensures a == b
  {
    var ra, rb := NatToString(a), NatToString(b);
    if a < 10 || b < 10 {
      assert |ra| == 1 && |rb| == 1;
      assert a < 10 && b < 10;
      assert DigitChar(a) == ra[0] == rb[0] == DigitChar(b);
    } else {
      assert ra[|ra| - 1] == DigitChar(a % 10);
      assert rb[|rb| - 1] == DigitChar(b % 10);
      assert a % 10 == b % 10;
      assert NatToString(a / 10) == ra[..|ra| - 1] == rb[..|rb| - 1] == NatToString(b / 10);
      NatToStringInjective(a / 10, b / 10);
    }
  }
}

=== FILE: tracing.dfy ===
/**
 What one request leaves behind in the tracing service: the trace created at
 request entry and the ordered events the handler issues against it (model
 calls made through the trace-linked client, scores, output or error
 updates, `end`, and the client's `flush`).
 */
module Tracing {

  import opened Wrappers
  import opened Wire

  /** The input of one model call, at the level of what it is built from. */
  datatype Prompt =
    | ExplainPrompt(text: string, context: string)
    | ClarityPrompt(term: string, explanation: string)
    | ChatPrompt(contents: seq<Entry>)

  /** The `output` a handler writes with `trace.update`. */
  datatype Output =
    | ExplainOutput(explanation: string, clarityScore: real)
    | ChatOutput(reply: string)

  /** Why a handler's `try` block threw. */
  datatype Cause =
    | InvalidText               // the explicit "Missing or invalid text" error
    | TypeError                 // a runtime TypeError from a malformed body field
    | Upstream(message: string) // a model call or the flush threw

  datatype Event =
    | Invoke(generation: string, prompt: Prompt)
    | Score(name: string, value: real, reason: string)
    | SetOutput(output: Output)
    | SetError(cause: Cause)
    | End
    | Flush

  datatype Trace = Trace(
    id: string,  // the id the tracing client assigns when the trace is created
    name: string,
    input: Request,
    tags: seq<string>,
    metadata: Option<Field>, // the `user_id` metadata entry, when the handler sets one
    events: seq<Event>)

  predicate IsTerminal(e: Event) {
    e.SetOutput? || e.SetError?
  }

  /** How many times an output or an error is written. */
  function Terminals(es: seq<Event>): nat {
    if es == [] then 0 else (if IsTerminal(es[0]) then 1 else 0) + Terminals(es[1..])
  }

  /** How many times `end` is called. */
  function Ends(es: seq<Event>): nat {
    if es == [] then 0 else (if es[0].End? then 1 else 0) + Ends(es[1..])
  }

  /** How many model calls are made. */
  function Invokes(es: seq<Event>): nat {
    if es == [] then 0 else (if es[0].Invoke? then 1 else 0) + Invokes(es[1..])
  }

  /** The trace reaches exactly one terminal state: one output or one error
      (never both, never neither), and it is ended exactly once. */
  predicate ExactlyOneTerminal(es: seq<Event>) {
    Terminals(es) == 1 && Ends(es) == 1
  }

  /** Counting distributes over concatenation of event logs. */
  lemma {:induction false} CountsAppend(a: seq<Event>, b: seq<Event>)
    ensures Terminals(a + b) == Terminals(a) + Terminals(b)
    ensures Ends(a + b) == Ends(a) + Ends(b)
    ensures Invokes(a + b) == Invokes(a) + Invokes(b)
  {
    if a == [] {
      assert a + b == b;
    } else {
      assert (a + b)[1..] == a[1..] + b;
      CountsAppend(a[1..], b);
    }
  }

  /** Counting one event in front of a log. */
  lemma CountsCons(e: Event, es: seq<Event>)
    ensures Terminals([e] + es) == (if IsTerminal(e) then 1 else 0) + Terminals(es)
    ensures Ends([e] + es) == (if e.End? then 1 else 0) + Ends(es)
    ensures Invokes([e] + es) == (if e.Invoke? then 1 else 0) + Invokes(es)
  {
    assert ([e] + es)[1..] == es;
  }

  /** Writing the output, ending and flushing adds one terminal state and
      one `end`, and no model call. */
  lemma FinishCounts(es: seq<Event>, o: Output)
    ensures Terminals(es + [SetOutput(o), End, Flush]) == Terminals(es) + 1
    ensures Ends(es + [SetOutput(o), End, Flush]) == Ends(es) + 1
    ensures Invokes(es + [SetOutput(o), End, Flush]) == Invokes(es)
  {
    CountsCons(Flush, []);
    CountsCons(End, [Flush]);
    CountsCons(SetOutput(o), [End, Flush]);
    CountsAppend(es, [SetOutput(o), End, Flush]);
  }

  /** Writing an error and ending adds one terminal state and one `end`, and
      no model call. */
  lemma CatchCounts(es: seq<Event>, c: Cause)
    ensures Terminals(es + [SetError(c), End]) == Terminals(es) + 1
    ensures Ends(es + [SetError(c), End]) == Ends(es) + 1
    ensures Invokes(es + [SetError(c), End]) == Invokes(es)
  {
    CountsCons(End, []);
    CountsCons(SetError(c), [End]);
    CountsAppend(es, [SetError(c), End]);
  }
}

=== FILE: wire.dfy ===
/**
 The JSON bodies exchanged between the browser extension and the backend.
 Bodies are loosely typed: any field may be absent, a string, or some other
 JSON value, and the backend's behaviour depends on which.
 */
module Wire {

  import opened Wrappers
  import opened Text

  /** One field of a JSON request body, as far as the code inspects it:
      absent (`undefined`), a string, or any other JSON value together with
      its JavaScript truthiness (`null`, `false` and `0` are falsy; `true`,
      non-zero numbers, arrays and objects are truthy). */
  datatype Field = Missing | Str(s: string) | NonString(truthy: bool) {

    /** JavaScript truthiness of the field's value. */
    predicate Truthy() {
      match this
      case Missing => false
      case Str(s) => Text.Truthy(s)
      case NonString(t) => t
    }
  }

  /** The two conversation roles the model API accepts. */
  datatype Role = User | Model

  /** One element of the `contents` list handed to the model: a turn
      `{role, parts: [{text}]}`, or a single character (what spreading a
      string in place of an array yields). */
  datatype Entry = Turn(role: Role, text: Field) | Char(c: char)

  /** The `history` field of a chat request. */
  datatype History =
    | NoHistory                  // absent
    | Entries(entries: seq<Entry>) // a JSON array (truthy even when empty)
    | Text(s: string)             // a JSON string
    | Scalar(truthy: bool)        // null, a boolean, a number or an object

  /** Body of `POST /explain`. */
  datatype ExplainRequest = ExplainRequest(text: Field, context: Field, userId: Field)

  /** Body of `POST /chat`. */
  datatype ChatRequest = ChatRequest(message: Field, history: History)

  /** A request body as recorded as a trace's input. */
  datatype Request = ExplainInput(explain: ExplainRequest) | ChatInput(chat: ChatRequest)

  /** A JSON response body. */
  datatype Body =
    | ExplainBody(explanation: string, traceId: Option<string>)
    | ChatBody(reply: string)

  datatype Response = Response(status: nat, body: Body)

  const Ok: nat := 200
  const ServerError: nat := 500
}

=== FILE: wrappers.dfy ===
/** Optional values, used for absent fields, NaN parses and "no request sent". */
module Wrappers {

  datatype Option<+T> = None | Some(value: T)
}
